=== FILE: README.md ===
# lodoo: local Odoo client, modelled in Dafny

`lib/pylib/lodoo.py` lets a host process drive an embedded Odoo (or OpenERP)
server without RPC. Most of the file is glue around the Odoo runtime. This
project models the parts that are logic in their own right:

- **Version gating** when the module is loaded. A runtime below `(7,)` is
  refused. The legacy extension API (`_api_v7`) is selected below `(8,)` and
  the modern one from `(8,)` on. Python's tuple `<` is modelled exactly
  (`Version.LexLess`).
- **Call shape** of `LocalRegistry.call_method`. The legacy API receives
  `(cursor, SUPERUSER_ID, *args)` on the registry model. The modern API
  receives `args` unchanged on the environment model. Keyword arguments are
  forwarded unchanged in both (`Dispatch`).
- **Start-up options** of `LOdoo.__init__`. The caller's list is copied (an
  absent list counts as empty), and `--workers=0` is appended unless some
  option already starts with `--workers` (`Options`).
- **The `LOdoo` singleton and its per-database registry cache** (`Client`).
  `__new__` always hands back the one object. But Python re-runs `__init__`
  on every `LOdoo(...)`, so each construction resets the options, clears the
  `_odoo` handle and empties the registry cache. `get_registry` is get-or-create:
  building a `LocalRegistry` reads the `odoo` property, which configures the
  runtime with the current options whenever `_odoo` is unset. It also opens a fresh
  cursor. Object identity is a reference drawn from a process-wide allocator.
  The object state is threaded as an immutable `Process` value.
- **Translation-rate audit** (`Translation`). `compute_translation_rate`
  classifies `ir.translation` records as untranslated or not and counts them
  per addon and overall. It then derives percentage rates, where zero terms
  give rate 0. `assert_translation_rate` maps a result to exit code 1 (total
  floor violated), 2 (some addon below the addon floor) or 0, in that
  precedence. The table is a `seq<Term>`, and the search domain
  `module in addons and lang == lang` is a filter on it.

Supporting modules: `Wrappers` (Option, Result), `Seqs` (an order-preserving
`Filter`, the model of a recordset's `filtered`, with an independent
index-set count) and `Text` (Python 3's `str.strip()` whitespace and
`str.startswith`).

`LOdoo` is declared a singleton: `__new__` hands back the one stored
instance (`lib/pylib/lodoo.py:250-257`). But Python re-runs `__init__` on
every `LOdoo(...)`, and `__init__` resets `_options`, `_odoo` and
`_registries` (`lib/pylib/lodoo.py:259-269`). Clearing `_odoo` does not
undo the configuration parsed earlier: it stays in the runtime until the next
`odoo` access runs `parse_config` again with the new options. So after a
re-construction a database lookup builds a new registry proxy and parses the
configuration again from the new options (`Client.NewResetsCache`).

## Model

| member | source | states |
|---|---|---|
| `Options.AnyStartsWith` | lib/pylib/lodoo.py:262 | the `any(o.startswith(...))` scan is true exactly when some position of the list holds an option with that prefix |
| `Options.Normalize` | lib/pylib/lodoo.py:261-265 | the kept list starts with the caller's options in order (absent means empty); it is one longer, ending in `--workers=0`, exactly when no option starts with `--workers`; the result always chooses a worker count |
| `Options.NormalizeIdempotent` | lib/pylib/lodoo.py:261-265 | normalising an already normalised list returns it unchanged |
| `Options.NormalizeAbsent` | lib/pylib/lodoo.py:261 | an absent option list and an empty one both yield just `--workers=0` |
| `Options.NormalizeKeepsWorkerChoice` | lib/pylib/lodoo.py:262-263 | a caller-supplied `--workers...` option suppresses the default and the list is kept as given |
| `Version.LexLess` | lib/pylib/lodoo.py:39-44 | tuple `<` holds exactly when some position decides it: equal prefixes, then `a` ends while `b` goes on, or `a`'s component is smaller |
| `Version.LexLessIrreflexive` | lib/pylib/lodoo.py:39-44 | no version is below itself |
| `Version.LexLessTransitive` | lib/pylib/lodoo.py:39-44 | version order is transitive |
| `Version.SelectGeneration` | lib/pylib/lodoo.py:39-44 | refused iff the version is empty or its major number is below 7, and then with the intended error naming the offending version; legacy iff the major number is 7; modern iff it is 8 or more |
| `Version.SelectGenerationAsWritten` | lib/pylib/lodoo.py:39-41 | the check as written accepts and selects exactly as `SelectGeneration`; a refusal carries the intended error only for a one-component version, every other refused version fails while the message is formatted |
| `Version.RefusalMessageFails` | lib/pylib/lodoo.py:39-41 | version 6.1.0 is refused with the intended error by `SelectGeneration`, but as written both it and the empty version end in a formatting error |
| `Version.LegacyRange` | lib/pylib/lodoo.py:44 | the legacy API is selected exactly on the half-open range `[(7,), (8,))` |
| `Dispatch.CallMethod` | lib/pylib/lodoo.py:208-217 | legacy calls go to the registry model with the cursor and the superuser id as the first two arguments; modern calls go to the environment model with exactly the caller's arguments; the caller's arguments end the list in order; method name and keyword arguments are forwarded unchanged |
| `Dispatch.RequireV8Api` | lib/pylib/lodoo.py:97-100 | the API check fails, with the error that `env` is unsupported, exactly when the legacy API is selected |
| `Dispatch.DispatchEquivalence` | lib/pylib/lodoo.py:211-217 | both generations hand the runtime the same caller values and keyword arguments; they differ only in the implicit `(cursor, SUPERUSER_ID)` of the legacy call |
| `Client.New` | lib/pylib/lodoo.py:254-269 | construction reuses the existing object (allocating one only the first time) and resets it: normalised options, `_odoo` cleared, empty registry cache; reference validity is preserved |
| `Client.GetLodoo` | lib/pylib/lodoo.py:271-273 | `get_lodoo` reports the singleton exactly when one was built |
| `Client.SingletonIdentity` | lib/pylib/lodoo.py:254-273 | two successive constructions yield the same object, the one `get_lodoo` returns, and an existing object is never replaced |
| `Client.Odoo` | lib/pylib/lodoo.py:275-288 | the first access configures the runtime with the object's current options; once configured, access changes nothing; identity, options and cache are untouched |
| `Client.GetRegistry` | lib/pylib/lodoo.py:298-305 | a cached database returns its stored proxy and changes nothing; an uncached one gains exactly that key with a freshly allocated proxy and cursor, all other entries unchanged, and `_odoo` set: a handle already set keeps its configuration, otherwise the runtime is configured with the object's current options; the proxy is afterwards cached under the name |
| `Client.GetRegistryTwice` | lib/pylib/lodoo.py:298-302 | a second lookup of the same database returns the same proxy and leaves the state as the first left it |
| `Client.DistinctDatabases` | lib/pylib/lodoo.py:298-302 | proxies and cursors of two different databases are distinct objects |
| `Client.NewResetsCache` | lib/pylib/lodoo.py:259-269 | after a re-construction a previously cached database gets a new proxy, and `parse_config` runs again with the new options |
| `Seqs.Filter` | lib/pylib/lodoo.py:129-133 | `filtered` keeps exactly the records satisfying the predicate, each as often as in the input, and never yields more records than it was given |
| `Text.LStrip` | lib/pylib/lodoo.py:131 | the result is a suffix of the input; only whitespace was removed; it starts with a non-blank character or is empty, and is empty iff the input is all whitespace |
| `Text.RStrip` | lib/pylib/lodoo.py:131 | the result is a prefix of the input; only whitespace was removed; it ends with a non-blank character or is empty, and is empty iff the input is all whitespace |
| `Text.Strip` | lib/pylib/lodoo.py:131 | `s.strip()` is a slice of `s` with only whitespace removed before and after it, and it neither starts nor ends with whitespace |
| `Text.StripEmptyIff` | lib/pylib/lodoo.py:131 | `s.strip()` is empty exactly when every character of `s` is whitespace |
| `Translation.UntranslatedIff` | lib/pylib/lodoo.py:129-133 | a term is bad exactly when its value is missing, is whitespace only (empty included), or equals `src` or `source` |
| `Translation.IsUntranslated` | lib/pylib/lodoo.py:129-133 | the bad-translation test of `filtered`: no value, an empty value, a value that strips to nothing, or a value equal to `src` or `source`; its meaning without `strip` is stated by `Translation.UntranslatedIff` |
| `Translation.Selected` | lib/pylib/lodoo.py:125-128 | the search domain `module in addons and lang == lang` as a record predicate; which records it selects is stated by `Translation.Search` and counted by `Translation.SearchCounts` |
| `Translation.Search` | lib/pylib/lodoo.py:125-128 | the search never returns more records than the table holds, and returns a record exactly when it is in the table, has the language and belongs to one of the requested addons |
| `Translation.InAddon` | lib/pylib/lodoo.py:139-142 | the per-addon filter `r.module == addon` as a record predicate; what it counts is stated by `Translation.AddonStats` and, against the raw table, by `Translation.AddonCounts` |
| `Translation.Rate` | lib/pylib/lodoo.py:144-157 | with no terms the rate is 0; otherwise rate times total equals 100 times the translated count; it lies in [0, 100] when the untranslated count does not exceed the total, and is 100 iff there are terms and none is untranslated |
| `Translation.ByAddon` | lib/pylib/lodoo.py:135-150 | the dictionary has exactly the requested addons as keys, each with the figures of its own terms |
| `Translation.AddonStats` | lib/pylib/lodoo.py:139-150 | an addon's total and untranslated figures are the numbers of positions in the fetched and in the bad records that belong to the addon, and its rate is the rate of exactly those two counts |
| `Translation.AddonUntranslatedBounded` | lib/pylib/lodoo.py:139-142 | within one addon the bad terms never outnumber the terms |
| `Translation.ComputeTranslationRate` | lib/pylib/lodoo.py:124-163 | the audit fails with `EnvironmentUnsupported` exactly when the legacy API is selected, because reading `env` first checks the API; otherwise it yields the audit of the table (`Translation.RateOf`) |
| `Translation.RateOf` | lib/pylib/lodoo.py:124-163 | one entry per requested addon; per addon and overall, untranslated is at most total and the rate is derived from those same counts and lies in [0, 100]; the total rate comes from the overall counts, not from the addon rates |
| `Translation.SearchCounts` | lib/pylib/lodoo.py:125-133 | the fetched terms are exactly the table records of the language in a requested addon, and the bad ones are those among them that are untranslated, counted by position in the table |
| `Translation.AddonCounts` | lib/pylib/lodoo.py:139-142 | an addon's total and untranslated counts equal the number of table records of that language and addon (and untranslated) |
| `Translation.TranslationCounts` | lib/pylib/lodoo.py:124-163 | the counts of the audit, overall and per requested addon, equal the corresponding record counts of the raw table |
| `Translation.SearchedAreRequested` | lib/pylib/lodoo.py:125-133 | every fetched term, and so every bad one, belongs to a requested addon |
| `Translation.SumSizesPartition` | lib/pylib/lodoo.py:136-142 | records that all belong to distinct addons are split by addon without loss or overlap |
| `Translation.AddonCountsSum` | lib/pylib/lodoo.py:136-161 | with distinct addon names the per-addon totals add up to `terms_total`, and the per-addon untranslated counts to `terms_untranslated` |
| `Translation.WorkedExample` | lib/pylib/lodoo.py:124-163 | an addon with one empty and one real translation reports (2, 1, 50); an addon with no terms reports (0, 0, 0); the total rate is 50 |
| `Translation.TotalIsNotAverage` | lib/pylib/lodoo.py:152-157 | one bad term in "a" and two good ones in "b" give a total rate of 200/3, while the mean of the addon rates is 50 |
| `Translation.AssertTranslationRate` | lib/pylib/lodoo.py:194-206 | exit code 1 iff a total floor is given and violated, whatever the addons; 2 iff not that and an addon floor is given and some addon is below it; 0 otherwise, in particular always 0 when no floor is given |

## Findings

| source | as written | input that shows it | evidently intended | confidence | as-written member | corrected member |
|---|---|---|---|---|---|---|
| lib/pylib/lodoo.py:39-41 | the refusal message is `"Odoo version %s is not supported!" % odoo.release.version_info`; `%` takes the tuple as its argument list, so a tuple of any length but one raises `TypeError` while the message is built | the refused 6.1 release tuple `(6, 1, 0, 'final', 0)` (modelled as `[6, 1, 0]`), or the empty tuple | raise `ImportError` naming the unsupported version, e.g. by formatting `(version_info,)` | high, not executed | `Version.SelectGenerationAsWritten`, `Version.RefusalMessageFails` | `Version.SelectGeneration` |

## Left out

- Importing the Odoo or OpenERP package and the `odoo.addons` namespace declaration (lib/pylib/lodoo.py:22-37): import-time side effects on an external library. The version tuple is a parameter of `Version.SelectGeneration`.
- Version.SelectGeneration: states the intended refusal, an error naming the version; the kind of Python exception is not modelled, and as written the source raises `TypeError` instead for every refused version whose tuple does not have exactly one component (see Findings and `Version.SelectGenerationAsWritten`).
- Version tuples are sequences of integers. The release-level string in Odoo's `version_info` is not represented. Comparisons against `(7,)` and `(8,)` are decided by the first component or by the length, so this does not change the outcome.
- `os.putenv` of `TZ` and `PGAPPNAME` (lib/pylib/lodoo.py:47-48): process environment I/O.
- What `LocalRegistry.__init__` asks of the runtime (lib/pylib/lodoo.py:74-81). The runtime registry and the database cursor are opaque; the model only allocates a fresh cursor reference. A lookup that fails inside the runtime (an unknown database, say) is not modelled, so `Client.GetRegistry` always succeeds.
- The environment object built by the lazy `env` property (lib/pylib/lodoo.py:87-95): it is runtime state. Only the API check it performs first is modelled (`Dispatch.RequireV8Api`), and `Translation.ComputeTranslationRate` fails through it on the legacy API.
- Client.New: `configuredWith` tracks the object's `_odoo` handle and the options it was configured with, not the runtime's global `odoo.tools.config`; `__init__` does not reset that global, and on 7.x the services started by the `odoo` property keep running (lib/pylib/lodoo.py:279-287).
- `Dispatch.CallMethod` describes the call the runtime receives, not its result: running the business method belongs to the runtime.
- The runtime bring-up in the `odoo` property beyond recording the option list used for configuration (lib/pylib/lodoo.py:279-287): `start_internal` and the environments registry are runtime state.
- `Dispatch.SuperuserId` is 1, the runtime's own `SUPERUSER_ID`; the runtime package is not part of this model.
- `recompute_fields` and `recompute_parent_store` (lib/pylib/lodoo.py:102-122): ORM side effects followed by a commit.
- `LocalDBService` and the `db` property (lib/pylib/lodoo.py:223-244, 290-296): RPC dispatch into runtime services.
- `LocalModel.__getattr__` and `LocalRegistry.__getitem__` (lib/pylib/lodoo.py:51-63, 219-220): dynamic attribute forwarding that ends in `call_method`; its argument shape is modelled by `Dispatch.CallMethod`.
- `print_translation_rate` (lib/pylib/lodoo.py:165-192): console formatting.
- The `atexit` `cleanup` hook (lib/pylib/lodoo.py:312-320): it closes database connections through runtime internals.
- Text.IsWhitespace: models Python 3's `str.strip()` whitespace set. Python 2's `unicode.strip()`, used under Odoo 7 to 10, also strips U+180E (MONGOLIAN VOWEL SEPARATOR), so a value made only of U+180E counts as translated here but as untranslated there.
- Translation rates are exact reals; the IEEE rounding of Python floats is not modelled.
- The order in which the search returns records: all counts are independent of it, and `Filter` preserves the table order.
- The caller's option list is never mutated because sequences are values; the copy made by `options[:]` needs no separate statement.

=== FILE: client.dfy ===
/**
 The `LOdoo` client object: a process-wide singleton holding the normalised
 start-up options, the lazily set runtime handle `_odoo` and a per-database cache of
 `LocalRegistry` proxies. Object identity is modelled by references drawn from
 a process-wide allocator; the object state is threaded as a value.
 */
module Client {
  import opened Wrappers
  import Options

  /** A `LocalRegistry` proxy for one database and the cursor it opened when built. */
  datatype LocalRegistry = LocalRegistry(ref: nat, dbname: string, cursor: nat)

  /**
   The fields of the `LOdoo` object: its identity, `_options`, the handle
   `_odoo` (present once the `odoo` property has run `parse_config`, together
   with the option list it parsed) and `_registries`.
   */
  datatype LOdoo = LOdoo(ref: nat, options: seq<string>, configuredWith: Option<seq<string>>,
                         registries: map<string, LocalRegistry>)

  /** The class attribute holding the singleton (if built yet) and the next free reference. */
  datatype Process = Process(singleton: Option<LOdoo>, nextRef: nat)

  /** A process in which no client was built yet. */
  const Initial: Process := Process(None, 0)

  /** Every reference in use was allocated, cached entries are keyed by their own database, and no two share an object. */
  ghost predicate Valid(p: Process)
  {
    p.singleton.Some? ==>
      var o := p.singleton.value;
      && o.ref < p.nextRef
      && (forall db :: db in o.registries ==>
            && o.registries[db].dbname == db
            && o.ref < o.registries[db].ref < p.nextRef
            && o.ref < o.registries[db].cursor < p.nextRef)
      && (forall d1, d2 :: d1 in o.registries && d2 in o.registries && d1 != d2 ==>
            && o.registries[d1].ref != o.registries[d2].ref
            && o.registries[d1].cursor != o.registries[d2].cursor
            && o.registries[d1].ref != o.registries[d2].cursor)
  }

  /**
   `LOdoo(options)`: `__new__` hands back the existing singleton (allocating it
   on first use) and `__init__` then runs on it again, resetting its options,
   clearing its `_odoo` handle and emptying its registry cache.
   */
  function New(p: Process, options: Option<seq<string>>): (r: Process)
    ensures r.singleton.Some?
    ensures p.singleton.Some? ==> r.singleton.value.ref == p.singleton.value.ref && r.nextRef == p.nextRef
    ensures p.singleton.None? ==> r.singleton.value.ref == p.nextRef && r.nextRef == p.nextRef + 1
    ensures r.singleton.value.options == Options.Normalize(options)
    ensures r.singleton.value.configuredWith.None? && r.singleton.value.registries == map[]
    ensures Valid(p) ==> Valid(r)
  {
    var ref := if p.singleton.Some? then p.singleton.value.ref else p.nextRef;
    Process(Some(LOdoo(ref, Options.Normalize(options), None, map[])), if p.singleton.Some? then p.nextRef else p.nextRef + 1)
  }

  /** `LOdoo.get_lodoo()`: the singleton's identity, if one was built. */
  function GetLodoo(p: Process): (r: Option<nat>)
    ensures r.Some? <==> p.singleton.Some?
    ensures r.Some? ==> r.value == p.singleton.value.ref
  {
    match p.singleton
    case None => None
    case Some(o) => Some(o.ref)
  }

  /** Every construction yields the one object that `get_lodoo` reports. */
  lemma SingletonIdentity(p: Process, first: Option<seq<string>>, second: Option<seq<string>>)
    ensures var p1 := New(p, first); var p2 := New(p1, second);
            && GetLodoo(p1) == GetLodoo(p2) == Some(p1.singleton.value.ref)
            && (p.singleton.Some? ==> GetLodoo(p1) == GetLodoo(p))
  {
  }

  /** The `odoo` property: on first access the runtime is configured with the current options. */
  function Odoo(o: LOdoo): (r: LOdoo)
    ensures r.configuredWith.Some?
    ensures o.configuredWith.Some? ==> r == o
    ensures o.configuredWith.None? ==> r.configuredWith == Some(o.options)
    ensures r.ref == o.ref && r.options == o.options && r.registries == o.registries
  {
    if o.configuredWith.Some? then o else o.(configuredWith := Some(o.options))
  }

  /** The result of a registry lookup: the process afterwards and the proxy returned. */
  datatype Lookup = Lookup(process: Process, registry: LocalRegistry)

  /**
   `get_registry(dbname)` (and `client[dbname]`): a cached proxy is returned as
   is; otherwise a new `LocalRegistry` is built, which reads the `odoo`
   property and opens a cursor, and is stored under `dbname`.
   */
  function GetRegistry(p: Process, dbname: string): (r: Lookup)
    requires p.singleton.Some?
    ensures r.process.singleton.Some?
    ensures Valid(p) ==> r.registry.dbname == dbname
    ensures var before := p.singleton.value; var after := r.process.singleton.value;
            && after.ref == before.ref && after.options == before.options
            && dbname in after.registries && after.registries[dbname] == r.registry
            && (dbname in before.registries ==> r.process == p && r.registry == before.registries[dbname])
            && (dbname !in before.registries ==>
                  && after.registries == before.registries[dbname := r.registry]
                  && p.nextRef <= r.registry.ref && p.nextRef <= r.registry.cursor
                  && after.configuredWith == Odoo(before).configuredWith)
    ensures Valid(p) ==> Valid(r.process)
  {
    var o := p.singleton.value;
    if dbname in o.registries then Lookup(p, o.registries[dbname])
    else
      var configured := Odoo(o);
      var registry := LocalRegistry(p.nextRef, dbname, p.nextRef + 1);
      var after := configured.(registries := o.registries[dbname := registry]);
      Lookup(Process(Some(after), p.nextRef + 2), registry)
  }

  /** A second lookup of the same database returns the same proxy and changes nothing. */
  lemma GetRegistryTwice(p: Process, dbname: string)
    requires p.singleton.Some?
    ensures var first := GetRegistry(p, dbname);
            GetRegistry(first.process, dbname) == first
  {
  }

  /** Lookups of two different databases never share a proxy or a cursor. */
  lemma DistinctDatabases(p: Process, d1: string, d2: string)
    requires Valid(p) && p.singleton.Some? && d1 != d2
    ensures var first := GetRegistry(p, d1);
            var second := GetRegistry(first.process, d2);
            first.registry.ref != second.registry.ref && first.registry.cursor != second.registry.cursor
  {
    var first := GetRegistry(p, d1);
    var second := GetRegistry(first.process, d2);
    var regs := second.process.singleton.value.registries;
    assert regs[d1] == first.registry;
  }

  /**
   Building the client again empties the cache and clears `_odoo`: a database
   looked up before gets a new proxy, and `parse_config` runs again with the
   new options.
   */
  lemma NewResetsCache(p: Process, dbname: string, options: Option<seq<string>>)
    requires Valid(p) && p.singleton.Some? && dbname in p.singleton.value.registries
    ensures var again := GetRegistry(New(p, options), dbname);
            && again.registry != p.singleton.value.registries[dbname]
            && again.process.singleton.value.configuredWith == Some(Options.Normalize(options))
  {
  }
}

=== FILE: dispatch.dfy ===
/**
 The argument shape of `LocalRegistry.call_method`: one entry point whose
 effective call depends on the runtime's extension-API generation.
 */
module Dispatch {
  import opened Wrappers
  import opened Version

  /** The runtime's privileged user id, passed implicitly by the legacy API. */
  const SuperuserId: nat := 1

  /** The `NotImplementedError` raised when the environment is asked for on the legacy API. */
  datatype ApiError = EnvironmentUnsupported

  /** `require_v8_api`: the error it raises, if any. */
  function RequireV8Api(generation: Generation): (r: Option<ApiError>)
    ensures r.Some? <==> generation == LegacyV7
  {
    match generation
    case LegacyV7 => Some(EnvironmentUnsupported)
    case ModernV8Plus => None
  }

  /** A positional argument of the effective call. */
  datatype Arg<V> = CursorArg(cursor: nat) | UidArg(uid: nat) | Plain(value: V)

  /**
   What the method is looked up on: the model class of the database registry
   (legacy, `registry[model]`) or the recordset of the environment (modern,
   `env[model]`).
   */
  datatype Receiver = RegistryModel(model: string) | EnvironmentModel(model: string)

  /** The call the runtime finally receives. */
  datatype Invocation<V> = Invocation(receiver: Receiver, methodName: string,
                                      args: seq<Arg<V>>, kwargs: map<string, V>)

  /** The caller's positional values as arguments. */
  function Wrap<V>(values: seq<V>): (r: seq<Arg<V>>)
    ensures |r| == |values|
    ensures forall i :: 0 <= i < |values| ==> r[i] == Plain(values[i])
  {
    seq(|values|, i requires 0 <= i < |values| => Plain(values[i]))
  }

  /** The caller-supplied values of an argument list, implicit arguments dropped. */
  function CallerValues<V>(args: seq<Arg<V>>): seq<V>
    decreases |args|
  {
    if |args| == 0 then []
    else (if args[0].Plain? then [args[0].value] else []) + CallerValues(args[1..])
  }

  /** The arguments the runtime itself supplies (cursor and user id). */
  function Implicit<V>(args: seq<Arg<V>>): seq<Arg<V>>
    decreases |args|
  {
    if |args| == 0 then []
    else (if args[0].Plain? then [] else [args[0]]) + Implicit(args[1..])
  }

  /** Wrapping caller values and reading them back gives them unchanged, with nothing implicit. */
  lemma {:induction false} CallerValuesOfWrap<V>(values: seq<V>)
    ensures CallerValues(Wrap(values)) == values
    ensures Implicit(Wrap(values)) == []
    decreases |values|
  {
    if |values| > 0 {
      CallerValuesOfWrap(values[1..]);
      assert Wrap(values)[1..] == Wrap(values[1..]);
    }
  }

  /**
   `call_method(model, methodName, *args, **kwargs)` on a database whose cursor is
   `cursor`: the legacy API receives `(cursor, SUPERUSER_ID, *args)` on the
   registry model, the modern API receives `args` unchanged on the environment
   model; keyword arguments are forwarded as given in both.
   */
  function CallMethod<V>(generation: Generation, cursor: nat, model: string, methodName: string,
                         args: seq<V>, kwargs: map<string, V>): (inv: Invocation<V>)
    ensures inv.methodName == methodName && inv.kwargs == kwargs
    ensures inv.receiver.model == model
    ensures inv.receiver.RegistryModel? <==> generation == LegacyV7
    ensures generation == LegacyV7 ==>
              |inv.args| == |args| + 2 && inv.args[0] == CursorArg(cursor) && inv.args[1] == UidArg(SuperuserId)
    ensures |args| <= |inv.args|
    ensures forall i :: 0 <= i < |args| ==> inv.args[|inv.args| - |args| + i] == Plain(args[i])
    ensures generation == ModernV8Plus ==> |inv.args| == |args|
  {
    match generation
    case LegacyV7 =>
      Invocation(RegistryModel(model), methodName, [CursorArg(cursor), UidArg(SuperuserId)] + Wrap(args), kwargs)
    case ModernV8Plus =>
      Invocation(EnvironmentModel(model), methodName, Wrap(args), kwargs)
  }

  /**
   Both generations hand the runtime the same caller values and keyword
   arguments; they differ only in the implicit cursor and user id.
   */
  lemma DispatchEquivalence<V>(cursor: nat, model: string, methodName: string, args: seq<V>, kwargs: map<string, V>)
    ensures var legacy := CallMethod(LegacyV7, cursor, model, methodName, args, kwargs);
            var modern := CallMethod(ModernV8Plus, cursor, model, methodName, args, kwargs);
            && CallerValues(legacy.args) == CallerValues(modern.args) == args
            && legacy.kwargs == modern.kwargs == kwargs
            && Implicit(legacy.args) == [CursorArg(cursor), UidArg(SuperuserId)]
            && Implicit(modern.args) == []
  {
    CallerValuesOfWrap(args);
    var implicitArgs: seq<Arg<V>> := [CursorArg(cursor), UidArg(SuperuserId)];
    var legacyArgs := implicitArgs + Wrap(args);
    assert legacyArgs[1..][1..] == Wrap(args);
    assert CallerValues(legacyArgs) == CallerValues(Wrap(args));
    assert Implicit(legacyArgs) == implicitArgs + Implicit(Wrap(args));
  }
}

=== FILE: options.dfy ===
/**
 Start-up option normalisation of the local client: unless the caller already
 chose a worker count, the embedded server is forced to run without workers.
 */
module Options {
  import opened Wrappers
  import opened Text

  /** The option prefix that selects the server's worker count. */
  const WorkersPrefix: string := "--workers"

  /** The option appended when no worker count was given. */
  const NoWorkers: string := "--workers=0"

  /** Some position of the list holds an option starting with `prefix`. */
  ghost predicate SomeStartsWith(options: seq<string>, prefix: string)
  {
    exists i :: 0 <= i < |options| && StartsWith(options[i], prefix)
  }

  /** `any(o.startswith(prefix) for o in options)`. */
  function AnyStartsWith(options: seq<string>, prefix: string): (b: bool)
    ensures b <==> SomeStartsWith(options, prefix)
    decreases |options|
  {
    if |options| == 0 then false
    else StartsWith(options[0], prefix) || AnyStartsWith(options[1..], prefix)
  }

  /**
   The option list the client keeps: a copy of the caller's list (an absent
   list counts as empty), with `--workers=0` appended unless some option
   already starts with `--workers`.
   */
  function Normalize(options: Option<seq<string>>): (r: seq<string>)
    ensures var given := options.GetOr([]);
      && |given| <= |r| <= |given| + 1
      && r[..|given|] == given
      && (|r| == |given| <==> SomeStartsWith(given, WorkersPrefix))
      && (|r| > |given| ==> r[|given|] == NoWorkers)
    ensures SomeStartsWith(r, WorkersPrefix)
  {
    var given := options.GetOr([]);
    if AnyStartsWith(given, WorkersPrefix) then given
    else
      assert StartsWith((given + [NoWorkers])[|given|], WorkersPrefix);
      given + [NoWorkers]
  }

  /** An absent option list behaves as an empty one and yields just `--workers=0`. */
  lemma NormalizeAbsent()
    ensures Normalize(None) == Normalize(Some([])) == [NoWorkers]
  {
  }

  /** Normalising an already normalised list changes nothing. */
  lemma NormalizeIdempotent(options: Option<seq<string>>)
    ensures Normalize(Some(Normalize(options))) == Normalize(options)
  {
    var r := Normalize(options);
    assert r[..|r|] == r;
  }

  /** A caller-chosen worker count is kept as given and not overridden. */
  lemma NormalizeKeepsWorkerChoice(options: seq<string>, i: nat)
    requires i < |options| && StartsWith(options[i], WorkersPrefix)
    ensures Normalize(Some(options)) == options
  {
  }
}

=== FILE: seqs.dfy ===
/**
 Order-preserving filtering of sequences, the model of a recordset's `filtered`,
 together with an independent, index-based way of counting the kept elements.
 */
module Seqs {

  /** The elements of `s` satisfying `keep`, in their original order. */
  function Filter<T(!new)>(s: seq<T>, keep: T -> bool): (r: seq<T>)
    ensures |r| <= |s|
    ensures forall x {:trigger multiset(r)[x]} ::
      multiset(r)[x] == if keep(x) then multiset(s)[x] else 0
    decreases |s|
  {
    if |s| == 0 then []
    else
      var init := s[..|s| - 1];
      assert s == init + [s[|s| - 1]];
      Filter(init, keep) + (if keep(s[|s| - 1]) then [s[|s| - 1]] else [])
  }

  /** The positions of `s` whose element satisfies `p`. */
  ghost function Indices<T(!new)>(s: seq<T>, p: T -> bool): set<nat>
  {
    set i: nat | i < |s| && p(s[i])
  }

  /** How many positions of `s` hold an element satisfying `p`. */
  ghost function IndexCount<T(!new)>(s: seq<T>, p: T -> bool): nat
  {
    |Indices(s, p)|
  }

  /** The length of a filter is the number of positions whose element passes. */
  lemma {:induction false} FilterCount<T(!new)>(s: seq<T>, p: T -> bool)
    ensures |Filter(s, p)| == IndexCount(s, p)
    decreases |s|
  {
    if |s| > 0 {
      var n := |s| - 1;
      var init := s[..n];
      FilterCount(init, p);
      var before := Indices(init, p);
      assert forall i: nat :: i < n ==> s[i] == init[i];
      if p(s[n]) {
        assert Indices(s, p) == before + {n};
        assert n !in before;
      } else {
        assert Indices(s, p) == before;
      }
    }
  }

  /** A filter every element passes keeps the whole sequence. */
  lemma {:induction false} FilterAll<T(!new)>(s: seq<T>, p: T -> bool)
    requires forall i :: 0 <= i < |s| ==> p(s[i])
    ensures Filter(s, p) == s
    decreases |s|
  {
    if |s| > 0 {
      var init := s[..|s| - 1];
      FilterAll(init, p);
      assert s == init + [s[|s| - 1]];
    }
  }

  /** Filtering by `p` and then by `q` keeps exactly what a predicate equivalent to their conjunction keeps. */
  lemma {:induction false} FilterFilter<T(!new)>(s: seq<T>, p: T -> bool, q: T -> bool, r: T -> bool)
    requires forall x :: r(x) == (p(x) && q(x))
    ensures Filter(Filter(s, p), q) == Filter(s, r)
    decreases |s|
  {
    if |s| > 0 {
      var n := |s| - 1;
      var init := s[..n];
      FilterFilter(init, p, q, r);
      var inner := Filter(init, p);
      if p(s[n]) {
        assert Filter(s, p) == inner + [s[n]];
        assert (inner + [s[n]])[..|inner|] == inner;
      } else {
        assert Filter(s, p) == inner;
      }
    }
  }

  /** What `p` keeps and what its complement `np` keeps add up to the whole sequence. */
  lemma {:induction false} FilterPartition<T(!new)>(s: seq<T>, p: T -> bool, np: T -> bool)
    requires forall x :: np(x) == !p(x)
    ensures |Filter(s, p)| + |Filter(s, np)| == |s|
    decreases |s|
  {
    if |s| > 0 {
      FilterPartition(s[..|s| - 1], p, np);
    }
  }

  /** Predicates that agree on every element count the same positions. */
  lemma IndexCountExt<T(!new)>(s: seq<T>, p: T -> bool, q: T -> bool)
    requires forall i :: 0 <= i < |s| ==> p(s[i]) == q(s[i])
    ensures IndexCount(s, p) == IndexCount(s, q)
  {
    assert Indices(s, p) == Indices(s, q);
  }

  /** The order in which two filters are applied does not matter. */
  lemma FilterCommute<T(!new)>(s: seq<T>, p: T -> bool, q: T -> bool)
    ensures Filter(Filter(s, p), q) == Filter(Filter(s, q), p)
  {
    var both := x => p(x) && q(x);
    FilterFilter(s, p, q, both);
    FilterFilter(s, q, p, both);
  }

  /** Counting what `p` keeps, by any predicate that agrees with `p`. */
  lemma FilterCountAs<T(!new)>(s: seq<T>, p: T -> bool, r: T -> bool)
    requires forall x :: p(x) == r(x)
    ensures |Filter(s, p)| == IndexCount(s, r)
  {
    FilterCount(s, p);
    IndexCountExt(s, p, r);
  }

  /** Counting what two successive filters keep, by a predicate equivalent to their conjunction. */
  lemma FilterFilterCount<T(!new)>(s: seq<T>, p: T -> bool, q: T -> bool, r: T -> bool)
    requires forall x :: r(x) == (p(x) && q(x))
    ensures |Filter(Filter(s, p), q)| == IndexCount(s, r)
  {
    FilterFilter(s, p, q, r);
    FilterCount(s, r);
  }

  /** Counting what three successive filters keep, by a predicate equivalent to their conjunction. */
  lemma FilterFilterFilterCount<T(!new)>(s: seq<T>, p: T -> bool, q: T -> bool, w: T -> bool, r: T -> bool)
    requires forall x :: r(x) == (p(x) && q(x) && w(x))
    ensures |Filter(Filter(Filter(s, p), q), w)| == IndexCount(s, r)
  {
    var both := x => p(x) && q(x);
    FilterFilter(s, p, q, both);
    FilterFilterCount(s, both, w, r);
  }
}

=== FILE: text.dfy ===
/**
 The two Python string operations the adapter relies on: `str.startswith`
 and argument-less `str.strip`, which removes leading and trailing whitespace.
 */
module Text {

  /**
   A character Python 3's `str.strip()` treats as whitespace: the C0
   separators and blanks, NEL, NO-BREAK SPACE and the Unicode space and line
   separators.
   */
  predicate IsWhitespace(c: char)
  {
    || ('\t' <= c <= '\r')
    || ('\U{1C}' <= c <= '\U{1F}')
    || c == ' '
    || c == '\U{85}'
    || c == '\U{A0}'
    || c == '\U{1680}'
    || ('\U{2000}' <= c <= '\U{200A}')
    || c == '\U{2028}'
    || c == '\U{2029}'
    || c == '\U{202F}'
    || c == '\U{205F}'
    || c == '\U{3000}'
  }

  /** Every character of `s` is whitespace (vacuously true of ""). */
  predicate AllWhitespace(s: string)
  {
    forall i :: 0 <= i < |s| ==> IsWhitespace(s[i])
  }

  /** A concatenation is all whitespace exactly when both parts are. */
  lemma AllWhitespaceConcat(a: string, b: string)
    ensures AllWhitespace(a + b) <==> AllWhitespace(a) && AllWhitespace(b)
  {
    var ab := a + b;
    if AllWhitespace(a) && AllWhitespace(b) {
      forall i | 0 <= i < |ab|
        ensures IsWhitespace(ab[i])
      {
        if i < |a| {
          assert ab[i] == a[i];
        } else {
          assert ab[i] == b[i - |a|];
        }
      }
    }
    if AllWhitespace(ab) {
      forall i | 0 <= i < |a|
        ensures IsWhitespace(a[i])
      {
        assert a[i] == ab[i];
      }
      forall i | 0 <= i < |b|
        ensures IsWhitespace(b[i])
      {
        assert b[i] == ab[|a| + i];
      }
    }
  }

  /** `s.startswith(prefix)`. */
  predicate StartsWith(s: string, prefix: string)
  {
    |prefix| <= |s| && s[..|prefix|] == prefix
  }

  /** `s.lstrip()`: drop leading whitespace. */
  function LStrip(s: string): (r: string)
    ensures |r| <= |s| && r == s[|s| - |r|..]
    ensures AllWhitespace(s[..|s| - |r|])
    ensures r == [] || !IsWhitespace(r[0])
    ensures r == [] <==> AllWhitespace(s)
    decreases |s|
  {
    if |s| > 0 && IsWhitespace(s[0]) then
      var r := LStrip(s[1..]);
      LStripStep(s, r);
      r
    else s
  }

  /** What `s.lstrip()` keeps of `s[1..]` it keeps of `s`, when `s` starts with whitespace. */
  lemma LStripStep(s: string, r: string)
    requires |s| > 0 && IsWhitespace(s[0])
    requires |r| <= |s| - 1 && r == s[1..][|s| - 1 - |r|..] && AllWhitespace(s[1..][..|s| - 1 - |r|])
    requires r == [] <==> AllWhitespace(s[1..])
    ensures r == s[|s| - |r|..] && AllWhitespace(s[..|s| - |r|])
    ensures r == [] <==> AllWhitespace(s)
  {
    assert s == [s[0]] + s[1..];
    assert s[..|s| - |r|] == [s[0]] + s[1..][..|s| - 1 - |r|];
    AllWhitespaceConcat([s[0]], s[1..]);
    AllWhitespaceConcat([s[0]], s[1..][..|s| - 1 - |r|]);
  }

  /** `s.rstrip()`: drop trailing whitespace. */
  function RStrip(s: string): (r: string)
    ensures |r| <= |s| && r == s[..|r|]
    ensures AllWhitespace(s[|r|..])
    ensures r == [] || !IsWhitespace(r[|r| - 1])
    ensures r == [] <==> AllWhitespace(s)
    decreases |s|
  {
    if |s| > 0 && IsWhitespace(s[|s| - 1]) then
      var r := RStrip(s[..|s| - 1]);
      RStripStep(s, r);
      r
    else s
  }

  /** What `s.rstrip()` keeps of `s[..|s| - 1]` it keeps of `s`, when `s` ends with whitespace. */
  lemma RStripStep(s: string, r: string)
    requires |s| > 0 && IsWhitespace(s[|s| - 1])
    requires |r| <= |s| - 1 && r == s[..|s| - 1][..|r|] && AllWhitespace(s[..|s| - 1][|r|..])
    requires r == [] <==> AllWhitespace(s[..|s| - 1])
    ensures r == s[..|r|] && AllWhitespace(s[|r|..])
    ensures r == [] <==> AllWhitespace(s)
  {
    assert s == s[..|s| - 1] + [s[|s| - 1]];
    assert s[|r|..] == s[..|s| - 1][|r|..] + [s[|s| - 1]];
    AllWhitespaceConcat(s[..|s| - 1], [s[|s| - 1]]);
    AllWhitespaceConcat(s[..|s| - 1][|r|..], [s[|s| - 1]]);
  }

  /** `r` occurs in `s` at position `i` with only whitespace before and after it. */
  ghost predicate FramedByWhitespace(s: string, i: int, r: string)
  {
    && 0 <= i <= |s| - |r| && r == s[i..i + |r|]
    && AllWhitespace(s[..i]) && AllWhitespace(s[i + |r|..])
  }

  /**
   `s.strip()`: the slice of `s` left once the whitespace at both ends is
   gone, so it neither starts nor ends with whitespace.
   */
  function Strip(s: string): (r: string)
    ensures exists i :: FramedByWhitespace(s, i, r)
    ensures r == [] || (!IsWhitespace(r[0]) && !IsWhitespace(r[|r| - 1]))
  {
    var l := LStrip(s);
    var r := RStrip(l);
    StripFrame(s, l, r);
    r
  }

  /**
   A prefix `r` of a suffix `l` of `s`, each cut off at whitespace, is framed
   by whitespace in `s`, and starts and ends where `l` and `r` do.
   */
  lemma StripFrame(s: string, l: string, r: string)
    requires |l| <= |s| && l == s[|s| - |l|..] && AllWhitespace(s[..|s| - |l|])
    requires l == [] || !IsWhitespace(l[0])
    requires |r| <= |l| && r == l[..|r|] && AllWhitespace(l[|r|..])
    requires r == [] || !IsWhitespace(r[|r| - 1])
    ensures FramedByWhitespace(s, |s| - |l|, r)
    ensures r == [] || (!IsWhitespace(r[0]) && !IsWhitespace(r[|r| - 1]))
  {
    var i := |s| - |l|;
    assert r == s[i..i + |r|];
    assert l[|r|..] == s[i + |r|..];
  }

  /** A string strips to "" exactly when it is made of whitespace only. */
  lemma StripEmptyIff(s: string)
    ensures Strip(s) == [] <==> AllWhitespace(s)
  {
    var l := LStrip(s);
    assert AllWhitespace(l) ==> l == [];
  }
}

=== FILE: translation.dfy ===
/**
 The translation-completeness audit: `compute_translation_rate` counts, per
 addon and overall, the translation terms of one language that were never
 really translated, and `assert_translation_rate` turns the result into an
 exit code. Rates are exact reals.
 */
module Translation {
  import opened Wrappers
  import opened Seqs
  import opened Text
  import opened Version
  import opened Dispatch

  /**
   One `ir.translation` record: its addon (the record's `module`), its
   language, the translated `value`, and the `src` and `source` texts it
   translates. Empty fields read as absent, like Odoo's `False`.
   */
  datatype Term = Term(addon: string, lang: string, value: Option<string>,
                       src: Option<string>, source: Option<string>)

  /**
   A bad translation: no value, an empty or blank value, or a value that is
   still the text it was meant to translate.
   */
  predicate IsUntranslated(t: Term)
  {
    || t.value.None?
    || t.value.value == ""
    || Strip(t.value.value) == ""
    || t.src == t.value
    || t.source == t.value
  }

  /** A term counts as untranslated exactly when its value is missing, whitespace only, or equal to `src` or `source`. */
  lemma UntranslatedIff(t: Term)
    ensures IsUntranslated(t) <==>
              || t.value.None?
              || AllWhitespace(t.value.value)
              || t.src == t.value
              || t.source == t.value
  {
    if t.value.Some? {
      StripEmptyIff(t.value.value);
    }
  }

  /** The search domain `[('module', 'in', addons), ('lang', '=', lang)]`. */
  function Selected(lang: string, addons: seq<string>): Term -> bool
  {
    (t: Term) => t.addon in addons && t.lang == lang
  }

  /** The filter `r.module == addon`. */
  function InAddon(addon: string): Term -> bool
  {
    (t: Term) => t.addon == addon
  }

  /**
   The records the search returns, in table order: a record is returned
   exactly when it is in the table, has the language and belongs to one of
   the addons.
   */
  function Search(terms: seq<Term>, lang: string, addons: seq<string>): (r: seq<Term>)
    ensures |r| <= |terms|
    ensures forall t :: t in r <==> t in terms && t.addon in addons && t.lang == lang
  {
    var r := Filter(terms, Selected(lang, addons));
    assert forall t :: t in r <==> multiset(r)[t] > 0;
    assert forall t :: t in terms <==> multiset(terms)[t] > 0;
    r
  }

  /** Per-addon figures of the audit. */
  datatype AddonRate = AddonRate(termsTotal: nat, termsUntranslated: nat, rate: real)

  /** The audit result: overall rate and counts, and the figures of every requested addon. */
  datatype RateResult = RateResult(totalRate: real, termsTotal: nat, termsUntranslated: nat,
                                   byAddon: map<string, AddonRate>)

  /**
   The percentage of translated terms, `100 * (1 - untranslated / total)`;
   with no terms at all the rate is 0, not 100.
   */
  function Rate(total: nat, untranslated: nat): (r: real)
    ensures total == 0 ==> r == 0.0
    ensures total > 0 ==> r * total as real == 100.0 * (total as real - untranslated as real)
    ensures untranslated <= total ==> 0.0 <= r <= 100.0
    ensures r == 100.0 <==> total > 0 && untranslated == 0
  {
    var fraction := if total > 0 then 1.0 - untranslated as real / total as real else 0.0;
    fraction * 100.0
  }

  /**
   The figures `compute_translation_rate` reports for `addon`: the number of
   fetched and of bad records whose addon it is, counted by position, and the
   rate of those two counts.
   */
  function AddonStats(trans: seq<Term>, bad: seq<Term>, addon: string): (r: AddonRate)
    ensures r.termsTotal == IndexCount(trans, InAddon(addon)) <= |trans|
    ensures r.termsUntranslated == IndexCount(bad, InAddon(addon)) <= |bad|
    ensures r.rate == Rate(r.termsTotal, r.termsUntranslated)
  {
    var total := |Filter(trans, InAddon(addon))|;
    var untranslated := |Filter(bad, InAddon(addon))|;
    FilterCount(trans, InAddon(addon));
    FilterCount(bad, InAddon(addon));
    AddonRate(total, untranslated, Rate(total, untranslated))
  }

  /** The `rate_by_addon` dictionary filled by the loop over `addons`. */
  function ByAddon(trans: seq<Term>, bad: seq<Term>, addons: seq<string>): (m: map<string, AddonRate>)
    ensures m.Keys == set a | a in addons
    ensures forall a :: a in m ==> m[a] == AddonStats(trans, bad, a)
    decreases |addons|
  {
    if |addons| == 0 then map[]
    else
      var last := addons[|addons| - 1];
      ByAddon(trans, bad, addons[..|addons| - 1])[last := AddonStats(trans, bad, last)]
  }

  /** Within one addon, untranslated terms never outnumber terms. */
  lemma AddonUntranslatedBounded(trans: seq<Term>, addon: string)
    ensures |Filter(Filter(trans, IsUntranslated), InAddon(addon))| <= |Filter(trans, InAddon(addon))|
  {
    FilterCommute(trans, IsUntranslated, InAddon(addon));
  }

  /**
   The audit of `compute_translation_rate(lang, addons)` over the
   `ir.translation` table `terms`, once the environment is available: one
   entry per requested addon, each with its rate derived from its own counts,
   and an overall rate derived from the overall counts.
   */
  function RateOf(terms: seq<Term>, lang: string, addons: seq<string>): (r: RateResult)
    ensures r.byAddon.Keys == set a | a in addons
    ensures r.termsUntranslated <= r.termsTotal <= |terms|
    ensures r.totalRate == Rate(r.termsTotal, r.termsUntranslated)
    ensures 0.0 <= r.totalRate <= 100.0
    ensures forall a :: a in r.byAddon ==>
              && r.byAddon[a].termsUntranslated <= r.byAddon[a].termsTotal
              && r.byAddon[a].rate == Rate(r.byAddon[a].termsTotal, r.byAddon[a].termsUntranslated)
              && 0.0 <= r.byAddon[a].rate <= 100.0
  {
    var trans := Search(terms, lang, addons);
    var bad := Filter(trans, IsUntranslated);
    var byAddon := ByAddon(trans, bad, addons);
    assert forall a :: a in byAddon ==> byAddon[a].termsUntranslated <= byAddon[a].termsTotal by {
      forall a | a in byAddon {
        AddonUntranslatedBounded(trans, a);
      }
    }
    RateResult(Rate(|trans|, |bad|), |trans|, |bad|, byAddon)
  }

  /**
   `compute_translation_rate(lang, addons)`: the table is reached through the
   `env` property, whose `require_v8_api` raises `NotImplementedError` on the
   legacy API; on the modern API the result is the audit of the table.
   */
  function ComputeTranslationRate(generation: Generation, terms: seq<Term>, lang: string,
                                  addons: seq<string>): (r: Result<RateResult, ApiError>)
    ensures r.Failure? <==> generation == LegacyV7
    ensures r.Failure? ==> r.error == EnvironmentUnsupported
    ensures r.Success? ==> r.value == RateOf(terms, lang, addons)
  {
    match RequireV8Api(generation)
    case Some(e) => Failure(e)
    case None => Success(RateOf(terms, lang, addons))
  }

  /** The overall counts, stated against the raw table. */
  lemma SearchCounts(terms: seq<Term>, lang: string, addons: seq<string>)
    ensures |Search(terms, lang, addons)| == IndexCount(terms, (t: Term) => t.addon in addons && t.lang == lang)
    ensures |Filter(Search(terms, lang, addons), IsUntranslated)| ==
              IndexCount(terms, (t: Term) => t.addon in addons && t.lang == lang && IsUntranslated(t))
  {
    var sel := Selected(lang, addons);
    FilterCountAs(terms, sel, (t: Term) => t.addon in addons && t.lang == lang);
    FilterFilterCount(terms, sel, IsUntranslated,
                      (t: Term) => t.addon in addons && t.lang == lang && IsUntranslated(t));
  }

  /** The counts of one requested addon, stated against the raw table. */
  lemma AddonCounts(terms: seq<Term>, lang: string, addons: seq<string>, a: string)
    requires a in addons
    ensures |Filter(Search(terms, lang, addons), InAddon(a))| ==
              IndexCount(terms, (t: Term) => t.lang == lang && t.addon == a)
    ensures |Filter(Filter(Search(terms, lang, addons), IsUntranslated), InAddon(a))| ==
              IndexCount(terms, (t: Term) => t.lang == lang && t.addon == a && IsUntranslated(t))
  {
    var sel := Selected(lang, addons);
    FilterFilterCount(terms, sel, InAddon(a), (t: Term) => t.lang == lang && t.addon == a);
    FilterFilterFilterCount(terms, sel, IsUntranslated, InAddon(a),
                            (t: Term) => t.lang == lang && t.addon == a && IsUntranslated(t));
  }

  /**
   The counts of `compute_translation_rate`, stated against the raw table:
   overall, the records of `lang` in a requested addon (and the bad ones among
   them); per requested addon, the records of `lang` in that addon.
   */
  lemma TranslationCounts(terms: seq<Term>, lang: string, addons: seq<string>)
    ensures var r := RateOf(terms, lang, addons);
            && r.termsTotal == IndexCount(terms, (t: Term) => t.addon in addons && t.lang == lang)
            && r.termsUntranslated == IndexCount(terms, (t: Term) => t.addon in addons && t.lang == lang && IsUntranslated(t))
            && forall a :: a in addons ==>
                 && r.byAddon[a].termsTotal == IndexCount(terms, (t: Term) => t.lang == lang && t.addon == a)
                 && r.byAddon[a].termsUntranslated ==
                      IndexCount(terms, (t: Term) => t.lang == lang && t.addon == a && IsUntranslated(t))
  {
    var r := RateOf(terms, lang, addons);
    var trans := Search(terms, lang, addons);
    var bad := Filter(trans, IsUntranslated);
    SearchCounts(terms, lang, addons);
    assert r.termsTotal == |trans| && r.termsUntranslated == |bad|;
    forall a | a in addons
      ensures r.byAddon[a].termsTotal == IndexCount(terms, (t: Term) => t.lang == lang && t.addon == a)
      ensures r.byAddon[a].termsUntranslated ==
                IndexCount(terms, (t: Term) => t.lang == lang && t.addon == a && IsUntranslated(t))
    {
      AddonCounts(terms, lang, addons, a);
      assert r.byAddon[a] == AddonStats(trans, bad, a);
    }
  }

  /** The filter `r.module != addon`. */
  function OutsideAddon(addon: string): Term -> bool
  {
    (t: Term) => t.addon != addon
  }

  /** How many records of `ts` belong to each of `keys`, summed. */
  function SumSizes(ts: seq<Term>, keys: seq<string>): nat
    decreases |keys|
  {
    if |keys| == 0 then 0 else |Filter(ts, InAddon(keys[0]))| + SumSizes(ts, keys[1..])
  }

  /** Removing the records of an addon not among `keys` leaves the sum over `keys` unchanged. */
  lemma {:induction false} SumSizesWithout(ts: seq<Term>, k: string, keys: seq<string>)
    requires k !in keys
    ensures SumSizes(Filter(ts, OutsideAddon(k)), keys) == SumSizes(ts, keys)
    decreases |keys|
  {
    if |keys| > 0 {
      SumSizesWithout(ts, k, keys[1..]);
      var b := keys[0];
      FilterFilter(ts, OutsideAddon(k), InAddon(b), InAddon(b));
    }
  }

  /** Records that all belong to distinct `keys` are split by addon without loss or overlap. */
  lemma {:induction false} SumSizesPartition(ts: seq<Term>, keys: seq<string>)
    requires forall i, j :: 0 <= i < j < |keys| ==> keys[i] != keys[j]
    requires forall t :: t in ts ==> t.addon in keys
    ensures SumSizes(ts, keys) == |ts|
    decreases |keys|
  {
    if |keys| > 0 {
      var k := keys[0];
      var rest := Filter(ts, OutsideAddon(k));
      FilterPartition(ts, InAddon(k), OutsideAddon(k));
      forall t | t in rest
        ensures t.addon in keys[1..]
      {
        assert multiset(rest)[t] > 0;
      }
      SumSizesPartition(rest, keys[1..]);
      assert k !in keys[1..] by {
        forall j | 0 <= j < |keys[1..]|
          ensures keys[1..][j] != k
        {
          assert keys[1..][j] == keys[j + 1];
        }
      }
      SumSizesWithout(ts, k, keys[1..]);
    }
  }

  /** The per-addon term counts of `byAddon`, summed over `addons`. */
  function SumTotals(byAddon: map<string, AddonRate>, addons: seq<string>): nat
    requires forall a :: a in addons ==> a in byAddon
    decreases |addons|
  {
    if |addons| == 0 then 0 else byAddon[addons[0]].termsTotal + SumTotals(byAddon, addons[1..])
  }

  /** The per-addon untranslated counts of `byAddon`, summed over `addons`. */
  function SumUntranslated(byAddon: map<string, AddonRate>, addons: seq<string>): nat
    requires forall a :: a in addons ==> a in byAddon
    decreases |addons|
  {
    if |addons| == 0 then 0 else byAddon[addons[0]].termsUntranslated + SumUntranslated(byAddon, addons[1..])
  }

  /** Summing the per-addon figures over `keys` sums the per-addon record counts. */
  lemma {:induction false} SumsOfStats(trans: seq<Term>, bad: seq<Term>, keys: seq<string>, m: map<string, AddonRate>)
    requires forall a :: a in keys ==> a in m && m[a] == AddonStats(trans, bad, a)
    ensures SumTotals(m, keys) == SumSizes(trans, keys)
    ensures SumUntranslated(m, keys) == SumSizes(bad, keys)
    decreases |keys|
  {
    if |keys| > 0 {
      SumsOfStats(trans, bad, keys[1..], m);
    }
  }

  /** Every fetched term, and so every bad one, belongs to a requested addon. */
  lemma SearchedAreRequested(terms: seq<Term>, lang: string, addons: seq<string>)
    ensures forall t :: t in Search(terms, lang, addons) ==> t.addon in addons
    ensures forall t :: t in Filter(Search(terms, lang, addons), IsUntranslated) ==> t.addon in addons
  {
    var trans := Search(terms, lang, addons);
    var bad := Filter(trans, IsUntranslated);
    forall t | t in trans
      ensures t.addon in addons
    {
      assert multiset(trans)[t] > 0;
    }
    forall t | t in bad
      ensures t.addon in addons
    {
      assert multiset(bad)[t] > 0;
      assert multiset(trans)[t] > 0;
    }
  }

  /**
   With distinct addon names, the per-addon counts add up to the overall
   counts: every fetched term belongs to exactly one requested addon.
   */
  lemma AddonCountsSum(terms: seq<Term>, lang: string, addons: seq<string>)
    requires forall i, j :: 0 <= i < j < |addons| ==> addons[i] != addons[j]
    ensures var r := RateOf(terms, lang, addons);
            && SumTotals(r.byAddon, addons) == r.termsTotal
            && SumUntranslated(r.byAddon, addons) == r.termsUntranslated
  {
    var trans := Search(terms, lang, addons);
    var bad := Filter(trans, IsUntranslated);
    SumsOfStats(trans, bad, addons, ByAddon(trans, bad, addons));
    SearchedAreRequested(terms, lang, addons);
    SumSizesPartition(trans, addons);
    SumSizesPartition(bad, addons);
  }

  /** A total-rate floor is given and the total rate is below it. */
  predicate TotalRateFails(r: RateResult, minTotalRate: Option<real>)
  {
    minTotalRate.Some? && r.totalRate < minTotalRate.value
  }

  /** An addon-rate floor is given and some reported addon is below it. */
  predicate AddonRateFails(r: RateResult, minAddonRate: Option<real>)
  {
    minAddonRate.Some? && exists a :: a in r.byAddon && r.byAddon[a].rate < minAddonRate.value
  }

  /**
   `assert_translation_rate(rate, min_total_rate, min_addon_rate)`: exit code
   1 when the total floor is violated, whatever the addons; otherwise 2 when
   some addon violates the addon floor; otherwise 0.
   */
  method AssertTranslationRate(r: RateResult, minTotalRate: Option<real>, minAddonRate: Option<real>)
    returns (code: int)
    ensures code == 1 <==> TotalRateFails(r, minTotalRate)
    ensures code == 2 <==> !TotalRateFails(r, minTotalRate) && AddonRateFails(r, minAddonRate)
    ensures code == 0 <==> !TotalRateFails(r, minTotalRate) && !AddonRateFails(r, minAddonRate)
    ensures minTotalRate.None? && minAddonRate.None? ==> code == 0
  {
    if minTotalRate.Some? && r.totalRate < minTotalRate.value {
      return 1;
    }
    if minAddonRate.Some? {
      var pending := r.byAddon.Keys;
      while pending != {}
        invariant pending <= r.byAddon.Keys
        invariant forall a :: a in r.byAddon && a !in pending ==> r.byAddon[a].rate >= minAddonRate.value
        decreases pending
      {
        var a :| a in pending;
        if r.byAddon[a].rate < minAddonRate.value {
          return 2;
        }
        pending := pending - {a};
      }
    }
    return 0;
  }

  /** Two terms of "es" in addon "a": an empty translation and a real one. */
  function SampleTerms(): seq<Term>
  {
    [Term("a", "es", Some(""), Some("x"), Some("x")),
     Term("a", "es", Some("hola"), Some("hello"), Some("hello"))]
  }

  /** In the sample, the empty translation is bad and the real one is not. */
  lemma SampleTermsClassified()
    ensures IsUntranslated(SampleTerms()[0]) && !IsUntranslated(SampleTerms()[1])
  {
    assert !IsWhitespace('h');
  }

  /** The search keeps the whole sample, all of it in addon "a". */
  lemma SampleTermsSearched()
    ensures Search(SampleTerms(), "es", ["a", "b"]) == SampleTerms()
    ensures Filter(SampleTerms(), InAddon("a")) == SampleTerms()
  {
    FilterAll(SampleTerms(), Selected("es", ["a", "b"]));
    FilterAll(SampleTerms(), InAddon("a"));
  }

  /** Only the empty translation of the sample is bad. */
  lemma SampleTermsFiltered()
    ensures Filter(SampleTerms(), IsUntranslated) == [SampleTerms()[0]]
  {
    var terms := SampleTerms();
    SampleTermsClassified();
    assert terms[..1] == [terms[0]];
    assert Filter(terms[..1], IsUntranslated) == [terms[0]];
  }

  /** The sample's bad term is in addon "a", and addon "b" has no terms. */
  lemma SampleTermsByAddon()
    ensures Filter([SampleTerms()[0]], InAddon("a")) == [SampleTerms()[0]]
    ensures Filter(SampleTerms(), InAddon("b")) == []
    ensures Filter([SampleTerms()[0]], InAddon("b")) == []
  {
    var terms := SampleTerms();
    assert terms[..1] == [terms[0]];
  }

  /**
   Example: addon "a" has an empty translation and a real one, addon "b" has
   no terms; "a" is half translated, "b" reports 0 and the total is 50.
   */
  lemma WorkedExample()
    ensures var r := RateOf(SampleTerms(), "es", ["a", "b"]);
            && r.byAddon["a"] == AddonRate(2, 1, 50.0)
            && r.byAddon["b"] == AddonRate(0, 0, 0.0)
            && r.termsTotal == 2 && r.termsUntranslated == 1 && r.totalRate == 50.0
  {
    SampleTermsSearched();
    SampleTermsFiltered();
    SampleTermsByAddon();
    var trans := SampleTerms();
    var bad := [SampleTerms()[0]];
    assert Rate(2, 1) == 50.0 && Rate(0, 0) == 0.0;
    assert AddonStats(trans, bad, "a") == AddonRate(2, 1, 50.0);
    assert AddonStats(trans, bad, "b") == AddonRate(0, 0, 0.0);
    var r := RateOf(SampleTerms(), "es", ["a", "b"]);
    assert r == RateResult(Rate(2, 1), 2, 1, ByAddon(trans, bad, ["a", "b"]));
  }

  /** Three terms of "es": an untranslated one in "a", two translated ones in "b". */
  function MixedTerms(): seq<Term>
  {
    [Term("a", "es", None, None, None),
     Term("b", "es", Some("uno"), Some("one"), Some("one")),
     Term("b", "es", Some("dos"), Some("two"), Some("two"))]
  }

  /** In the mixed table, the term of "a" is bad and both terms of "b" are not. */
  lemma MixedTermsClassified()
    ensures IsUntranslated(MixedTerms()[0])
    ensures !IsUntranslated(MixedTerms()[1]) && !IsUntranslated(MixedTerms()[2])
  {
    assert !IsWhitespace('u') && !IsWhitespace('d');
  }

  /** The short prefixes of the mixed table, spelled out. */
  lemma MixedTermsPrefixes()
    ensures MixedTerms()[..2][..1] == MixedTerms()[..1] == [MixedTerms()[0]]
    ensures MixedTerms()[..2] == [MixedTerms()[0], MixedTerms()[1]]
  {
  }

  /** The search keeps the whole mixed table. */
  lemma MixedTermsSearched()
    ensures Search(MixedTerms(), "es", ["a", "b"]) == MixedTerms()
  {
    FilterAll(MixedTerms(), Selected("es", ["a", "b"]));
  }

  /** Only the term of "a" in the mixed table is bad. */
  lemma MixedTermsFiltered()
    ensures Filter(MixedTerms(), IsUntranslated) == [MixedTerms()[0]]
  {
    var terms := MixedTerms();
    MixedTermsClassified();
    MixedTermsPrefixes();
    assert Filter(terms[..1], IsUntranslated) == [terms[0]];
    assert Filter(terms[..2], IsUntranslated) == [terms[0]];
  }

  /** How the mixed table and its bad terms split between addons "a" and "b". */
  lemma MixedTermsByAddon()
    ensures Filter(MixedTerms(), InAddon("a")) == [MixedTerms()[0]]
    ensures Filter([MixedTerms()[0]], InAddon("a")) == [MixedTerms()[0]]
    ensures Filter(MixedTerms(), InAddon("b")) == MixedTerms()[1..]
    ensures Filter([MixedTerms()[0]], InAddon("b")) == []
  {
    MixedTermsPrefixes();
  }

  /**
   The total rate is taken over all terms, not averaged over addons: one
   untranslated term in "a" and two translated ones in "b" give 200/3, while
   the addon rates 0 and 100 average 50.
   */
  lemma TotalIsNotAverage()
    ensures var r := RateOf(MixedTerms(), "es", ["a", "b"]);
            && r.totalRate == 200.0 / 3.0
            && (r.byAddon["a"].rate + r.byAddon["b"].rate) / 2.0 == 50.0
  {
    MixedTermsSearched();
    MixedTermsFiltered();
    MixedTermsByAddon();
    var trans := MixedTerms();
    var bad := [MixedTerms()[0]];
    assert AddonStats(trans, bad, "a") == AddonRate(1, 1, 0.0);
    assert AddonStats(trans, bad, "b") == AddonRate(2, 0, 100.0);
    var r := RateOf(MixedTerms(), "es", ["a", "b"]);
    assert r.byAddon == ByAddon(trans, bad, ["a", "b"]);
    assert r.termsTotal == 3 && r.termsUntranslated == 1;
  }
}

=== FILE: version.dfy ===
/**
 Version gating done when the adapter is loaded: runtimes older than 7.0 are
 refused, and 7.x selects the legacy (cursor and user id) extension API.
 */
module Version {
  import opened Wrappers

  /**
   Position `k` decides `a < b`: the first `k` components agree, and there `a`
   has ended while `b` goes on, or `a`'s component is the smaller one.
   */
  ghost predicate DecidedAt(a: seq<int>, b: seq<int>, k: int)
  {
    && 0 <= k <= |a| && k <= |b| && a[..k] == b[..k]
    && ((k == |a| && k < |b|) || (k < |a| && k < |b| && a[k] < b[k]))
  }

  /** Python's `<` on tuples of integers: lexicographic, a proper prefix being smaller. */
  function LexLess(a: seq<int>, b: seq<int>): (r: bool)
    ensures r <==> exists k :: DecidedAt(a, b, k)
    decreases |a|
  {
    if |a| == 0 then
      assert |b| > 0 ==> DecidedAt(a, b, 0);
      |b| > 0
    else if |b| == 0 then false
    else if a[0] != b[0] then
      assert a[0] < b[0] ==> DecidedAt(a, b, 0);
      a[0] < b[0]
    else
      var r := LexLess(a[1..], b[1..]);
      assert r ==> exists k :: DecidedAt(a, b, k) by {
        if r {
          var k :| DecidedAt(a[1..], b[1..], k);
          assert a[..k + 1] == [a[0]] + a[1..][..k];
          assert b[..k + 1] == [b[0]] + b[1..][..k];
          assert DecidedAt(a, b, k + 1);
        }
      }
      assert (exists k :: DecidedAt(a, b, k)) ==> r by {
        if exists k :: DecidedAt(a, b, k) {
          var k :| DecidedAt(a, b, k);
          assert a[1..][..k - 1] == a[..k][1..];
          assert b[1..][..k - 1] == b[..k][1..];
          assert DecidedAt(a[1..], b[1..], k - 1);
        }
      }
      r
  }

  /** No version is below itself. */
  lemma {:induction false} LexLessIrreflexive(a: seq<int>)
    ensures !LexLess(a, a)
    decreases |a|
  {
    if |a| > 0 {
      LexLessIrreflexive(a[1..]);
    }
  }

  /** Version order is transitive. */
  lemma {:induction false} LexLessTransitive(a: seq<int>, b: seq<int>, c: seq<int>)
    requires LexLess(a, b) && LexLess(b, c)
    ensures LexLess(a, c)
    decreases |a|
  {
    if |a| > 0 && |b| > 0 && |c| > 0 && a[0] == b[0] == c[0] {
      LexLessTransitive(a[1..], b[1..], c[1..]);
    }
  }

  /** The two extension-API generations of the embedded runtime. */
  datatype Generation = LegacyV7 | ModernV8Plus

  /**
   Why loading the adapter fails: the intended refusal of a runtime older
   than 7.0, or the `TypeError` Python raises while formatting that refusal's
   message.
   */
  datatype VersionError = UnsupportedVersion(versionInfo: seq<int>) | MessageFormatError(versionInfo: seq<int>)

  /**
   The generation selected for `versionInfo`: refused below `(7,)`, legacy
   (`_api_v7`) below `(8,)`, modern otherwise.
   */
  function SelectGeneration(versionInfo: seq<int>): (r: Result<Generation, VersionError>)
    ensures r.Failure? <==> |versionInfo| == 0 || versionInfo[0] < 7
    ensures r == Success(LegacyV7) <==> |versionInfo| > 0 && versionInfo[0] == 7
    ensures r == Success(ModernV8Plus) <==> |versionInfo| > 0 && versionInfo[0] >= 8
    ensures r.Failure? ==> r.error == UnsupportedVersion(versionInfo)
  {
    if LexLess(versionInfo, [7]) then Failure(UnsupportedVersion(versionInfo))
    else if LexLess(versionInfo, [8]) then Success(LegacyV7)
    else Success(ModernV8Plus)
  }

  /**
   The load-time check as written. The refusal message is built with
   `"... %s ..." % version_info`, and Python's `%` takes a tuple on its right
   as the whole argument list. With a single `%s` only a one-component tuple
   formats; any other tuple raises `TypeError` before `ImportError` can be
   raised. Accepted versions are unaffected.
   */
  function SelectGenerationAsWritten(versionInfo: seq<int>): (r: Result<Generation, VersionError>)
    ensures r.Success? <==> SelectGeneration(versionInfo).Success?
    ensures r.Success? ==> r == SelectGeneration(versionInfo)
    ensures r.Failure? ==> (r.error == UnsupportedVersion(versionInfo) <==> |versionInfo| == 1)
    ensures r.Failure? && |versionInfo| != 1 ==> r.error == MessageFormatError(versionInfo)
  {
    if LexLess(versionInfo, [7]) then
      if |versionInfo| == 1 then Failure(UnsupportedVersion(versionInfo))
      else Failure(MessageFormatError(versionInfo))
    else SelectGeneration(versionInfo)
  }

  /**
   A 6.1.0 runtime is refused by the intended check with the version in the
   error, but as written the refusal itself fails with a formatting error;
   so does an empty version tuple.
   */
  lemma RefusalMessageFails()
    ensures SelectGeneration([6, 1, 0]) == Failure(UnsupportedVersion([6, 1, 0]))
    ensures SelectGenerationAsWritten([6, 1, 0]) == Failure(MessageFormatError([6, 1, 0]))
    ensures SelectGenerationAsWritten([]) == Failure(MessageFormatError([]))
  {
    assert LexLess([6, 1, 0], [7]);
  }

  /** The legacy flag holds exactly on the half-open version range `[(7,), (8,))`. */
  lemma LegacyRange(versionInfo: seq<int>)
    ensures SelectGeneration(versionInfo) == Success(LegacyV7) <==>
              !LexLess(versionInfo, [7]) && LexLess(versionInfo, [8])
  {
  }
}

=== FILE: wrappers.dfy ===
/** Failure-carrying wrappers shared by the model. */
module Wrappers {

  /** A value that may be absent (Python `None`, or Odoo's `False` for an empty field). */
  datatype Option<+T> = None | Some(value: T) {

    /** The wrapped value, or `default` when absent. */
    function GetOr(default: T): T {
      match this
      case Some(v) => v
      case None => default
    }
  }

  /** The outcome of an operation that can raise. */
  datatype Result<+R, +E> = Success(value: R) | Failure(error: E)
}
